=== FILE: README.md ===
# Dislog delivery core in Dafny

Dislog forwards application logs to Discord webhooks. A client is built from a
builder that maps each log level to a list of webhook URLs; the client creates
one delivery worker (`HookBucket`) per registered (level, URL) entry, so a URL
registered twice or under two levels gets two workers, and `queueLog` appends
a log to the queue of every worker registered for the log's level. Each worker runs a
polling loop: it respects the rate limit reported in the `X-RateLimit-Remaining`
and `X-RateLimit-Reset` response headers, posts the head of its queue as a
formatted message, retries a failing log a bounded number of times and then
drops it. The formatter builds the message text: a header with timestamp and
host prefix, the exception and optional stack trace, the MDC context block,
truncation to 1950 characters with backtick balancing, and a trailer line.

This project models that core as immutable datatypes and pure functions:

- `Wrappers`: `Option` (Kotlin nullables) and `Result` (a thrown exception).
- `JvmInt`: Kotlin `Int`/`Long` ranges and explicit two's-complement wrap-around.
- `Constants`, `Log`, `Config`: default constants, the log event and level,
  and the scalar client options (`Settings`).
- `FormattingUtils`: `generateLogBody`, including Kotlin's `chunked`.
- `HookBucket`: worker state, header parsing, `sendLog` (`SendLog`), one loop
  iteration (`Step`), runs of interleaved producer and worker events (`Run`),
  and the lemmas about them: FIFO removal, the retry budget, rate-limit
  back-off.
- `DislogClient`: the builder (defaults, setters, `addWebhook`), the client
  construction (`Build`) and the fan-out of `queueLog`.

Time (`now`, epoch seconds) and the result of the HTTP request (`Outcome`:
a transport exception, or a status code with the `X-RateLimit-Remaining` and
`X-RateLimit-Reset` headers) are inputs of `Step`. A header is `None` when it
is missing or not a decimal integer; a numeric header still fails to parse
when it does not fit `Int` (remaining) or `Long` (reset), as `toInt()` and
`toLong()` do. Builder getters are plain field reads.

Strings are `seq<char>`, read as a relabelling of Kotlin's UTF-16 strings:
each UTF-16 code unit stands for one `char`, a unit outside the surrogate
range for the character with the same number, and a surrogate unit
`0xD800 + k` for the private-use character `0xF0000 + k`. The relabelling is
injective and keeps every ASCII character, the backtick included, so the
lengths, the 1950-unit cut and the backtick count are those Kotlin's
`length`, `chunked` and `count` compute.

Behaviour worth noting:

- An always-failing log gets exactly `maxRetries` attempts: attempts happen
  only while `tries < maxRetries`, and a worker with `maxRetries <= 0` drops
  each log without an attempt.
- A missing or unparsable rate-limit header, even on a 2xx response, takes the
  exception path: the attempt counts as failed and the log stays queued. If
  the remaining header parsed but the reset header did not, `remaining` has
  already been overwritten.
- The MDC block is appended whenever a context map was captured, even an
  empty one (giving "\nMDC:``````").
- Fence balancing counts single backtick characters.
- The rate-limit sleep is `(reset + 2 - now) * 1000` ms, and sending resumes
  once `reset < now - 1`.
- A dropped log only resets the counter; nothing is printed.

## Model

| member | source | states |
|---|---|---|
| JvmInt.WrapInt64 | src/main/java/com/kikkia/dislog/models/HookBucket.kt:95 | `Long` addition: exact inside the range, `LONG_MAX + 1` becomes `LONG_MIN`, always congruent modulo 2^64 |
| JvmInt.WrapInt32 | src/main/java/com/kikkia/dislog/models/HookBucket.kt:90 | `Int` increment: exact inside the range, congruent modulo 2^32 |
| FormattingUtils.Chunked | src/main/java/com/kikkia/dislog/utils/FormattingUtils.kt:44 | the chunks concatenate back to the input; each is non-empty and at most `size` long; all but the last have exactly `size` characters |
| FormattingUtils.FirstChunk | src/main/java/com/kikkia/dislog/utils/FormattingUtils.kt:44 | `chunked(size)[0]` exists exactly for a non-empty string and is its first `min(size, length)` characters |
| FormattingUtils.Backticks | src/main/java/com/kikkia/dislog/utils/FormattingUtils.kt:50 | definition, no contract: the number of backtick characters |
| FormattingUtils.BackticksCountsOccurrences | src/main/java/com/kikkia/dislog/utils/FormattingUtils.kt:50 | the count equals the multiplicity of the backtick in the string's multiset of characters |
| FormattingUtils.BackticksAppend | src/main/java/com/kikkia/dislog/utils/FormattingUtils.kt:50 | the backtick count of a concatenation is the sum of the counts |
| FormattingUtils.NoBackticks | src/main/java/com/kikkia/dislog/utils/FormattingUtils.kt:50 | text without a backtick adds nothing to the count |
| FormattingUtils.Header | src/main/java/com/kikkia/dislog/utils/FormattingUtils.kt:22 | definition, no contract: "`timestamp` `host:` message" |
| FormattingUtils.Template | src/main/java/com/kikkia/dislog/utils/FormattingUtils.kt:24 | definition, no contract: a null message renders as "null" |
| FormattingUtils.ExceptionSection | src/main/java/com/kikkia/dislog/utils/FormattingUtils.kt:23-33 | empty without an exception; otherwise the message (or "null") on its own line in inline code, followed by the fenced stack trace exactly when stack traces are on |
| FormattingUtils.MdcEntry | src/main/java/com/kikkia/dislog/utils/FormattingUtils.kt:39 | definition, no contract: "key: {\n  value\n}\n" |
| FormattingUtils.MdcEntries | src/main/java/com/kikkia/dislog/utils/FormattingUtils.kt:38-40 | definition, no contract: the entries rendered in iteration order |
| FormattingUtils.MdcEntriesAppend | src/main/java/com/kikkia/dislog/utils/FormattingUtils.kt:38-40 | rendering entries is a homomorphism: the text of `a + b` is the text of `a` followed by that of `b` |
| FormattingUtils.MdcSection | src/main/java/com/kikkia/dislog/utils/FormattingUtils.kt:36-42 | empty exactly when no map was captured; an empty map gives "\nMDC:``````"; otherwise "\nMDC:```", the rendered entries, and a closing "```", eleven characters longer than the entries |
| FormattingUtils.ComposeBody | src/main/java/com/kikkia/dislog/utils/FormattingUtils.kt:22-42 | the body is the header "`timestamp` `host:` message", then the exception section (empty without an exception), then the MDC block (empty without a map) as its last part; with neither it is exactly the header, and it is never empty |
| FormattingUtils.CloseFence | src/main/java/com/kikkia/dislog/utils/FormattingUtils.kt:50-52 | the result has an even backtick count; a fence is appended exactly when the chunk's count is odd |
| FormattingUtils.Finish | src/main/java/com/kikkia/dislog/utils/FormattingUtils.kt:44-56 | ends with the trailer, at most 1985 characters; a body under 1950 characters is kept whole; a longer one becomes exactly its first 1950 characters, then "```" when those hold an odd number of backticks (nothing when even), then the truncation marker and the trailer, with an even backtick count overall |
| FormattingUtils.GenerateLogBody | src/main/java/com/kikkia/dislog/utils/FormattingUtils.kt:19-57 | the same guarantees for the message of a log, stated against its composed body, including the exact truncated form: first 1950 characters, "```" exactly on an odd count, marker, trailer |
| FormattingUtils.VisibleBodyOfMessage | src/main/java/com/kikkia/dislog/utils/FormattingUtils.kt:44-56 | round trip: the posted message determines exactly the first `min(1950, length)` characters of the body, unaltered |
| HookBucket.New | src/main/java/com/kikkia/dislog/models/HookBucket.kt:15-19 | a new worker has an empty queue and zero counter and rate state |
| HookBucket.QueueLog | src/main/java/com/kikkia/dislog/models/HookBucket.kt:25-27 | the log is added at the tail and nothing else changes; the worker invariant is kept |
| HookBucket.Accepted | src/main/java/com/kikkia/dislog/models/HookBucket.kt:79-104 | definition, no contract: a 2xx response whose remaining header fits `Int` and whose reset header fits `Long` |
| HookBucket.CanSend | src/main/java/com/kikkia/dislog/models/HookBucket.kt:35 | definition, no contract: requests remain, or the reset time lies more than one second in the past |
| HookBucket.CanSendLater | src/main/java/com/kikkia/dislog/models/HookBucket.kt:35 | once the worker may send, it still may at any later time with the same rate state |
| HookBucket.BackoffMillis | src/main/java/com/kikkia/dislog/models/HookBucket.kt:50 | the sleep is a `Long` congruent to `(reset + 2 - now) * 1000` modulo 2^64, and equal to it whenever the product fits a `Long` |
| HookBucket.PayloadFor | src/main/java/com/kikkia/dislog/models/HookBucket.kt:63-70 | the posted object carries the configured avatar and name; its content is `generateLogBody` of this log with the configured stack-trace flag and host identifier: the composed body plus the trailer when it is under 1950 characters, and otherwise its first 1950 characters, then "```" exactly when those hold an odd number of backticks, then the truncation marker and the trailer; so it shows exactly the first `min(1950, length)` characters of the body and has at most 1985 characters |
| HookBucket.SendLog | src/main/java/com/kikkia/dislog/models/HookBucket.kt:58-110 | the head is posted with the formatted content; it is delivered and removed (counter reset) exactly on a 2xx whose remaining header fits `Int` and whose reset header fits `Long`, and otherwise stays with the counter one higher; a transport failure or bad remaining header leaves the rate state alone, a bad reset header leaves only `reset` alone, parsed headers overwrite both whatever the status, and a 429 forces `remaining = 0`, `reset = t + 1` |
| HookBucket.Step | src/main/java/com/kikkia/dislog/models/HookBucket.kt:32-52 | backs off exactly when `canSend` is false and idles exactly on an empty queue, both without changing state; attempts exactly when the counter is under `maxRetries`, drops the head exactly when it is not; only delivery and drop remove, always the head, and reset the counter; a failure adds exactly one; the worker invariant `0 <= tries <= max(0, maxRetries)`, empty queue implies `tries == 0`, is kept |
| HookBucket.BackoffAtLeastOneSecond | src/main/java/com/kikkia/dislog/models/HookBucket.kt:35-50 | when sending is not allowed, the sleep is `(reset + 2 - now) * 1000` and at least 1000 ms |
| HookBucket.TooManyRequestsBacksOff | src/main/java/com/kikkia/dislog/models/HookBucket.kt:89-95 | after a 429 with reset `t`, the log stays queued, `remaining = 0`, `reset = t + 1`, and sending is allowed again exactly when `now > t + 2` |
| HookBucket.Run | src/main/java/com/kikkia/dislog/models/HookBucket.kt:32-52 | a run yields one action per event and keeps the worker invariant |
| HookBucket.RunIsFifo | src/main/java/com/kikkia/dislog/models/HookBucket.kt:25-44 | the logs that left the queue, followed by the queue, equal the initial queue followed by the enqueued logs: logs leave in enqueue order |
| HookBucket.FailingHeadUsesBudget | src/main/java/com/kikkia/dislog/models/HookBucket.kt:38-44 | while every send fails, only the head is attempted, at most `max(0, maxRetries) - tries` times; if it leaves it is dropped after exactly that many; nothing is delivered |
| HookBucket.FailingEvent | src/main/java/com/kikkia/dislog/models/HookBucket.kt:36-44 | one event while sends fail: never a delivery; a drop takes the head once the budget is spent; otherwise the head stays and only a failed attempt on it adds one to the counter |
| HookBucket.FailingRestNeverDelivers | src/main/java/com/kikkia/dislog/models/HookBucket.kt:89-108 | while every send fails, no action of the run is a delivery |
| HookBucket.FailingHeadDroppedAfterBudget | src/main/java/com/kikkia/dislog/models/HookBucket.kt:35-44 | a log whose sends fail while the worker may send at every step (a fresh worker included) is attempted `max(0, maxRetries) - tries` times in a row and then dropped, the counter back at 0 (no attempt at all when `maxRetries <= 0`) |
| HookBucket.FailingKeepsSending | src/main/java/com/kikkia/dislog/models/HookBucket.kt:76-109 | a failure that keeps the worker able to send (no response; a remaining header that does not parse, whatever the status; or a positive remaining count with either a reset header that does not parse, whatever the status, or one that parses on a non-2xx, non-429 status) keeps the head, adds one to the counter, and leaves the worker with requests left or its rate state unchanged |
| HookBucket.NoAttemptWhileRateLimited | src/main/java/com/kikkia/dislog/models/HookBucket.kt:35-51 | while `canSend` is false no log is attempted or dropped, rate state and counter stay, and enqueued logs accumulate at the tail |
| DislogClient.NewBuilder | src/main/java/com/kikkia/dislog/api/DislogClient.kt:60-68 | no routes; username and identifier "dislog", the default avatar, no stack traces, UTC, 5 retries, 100 ms poll rate |
| DislogClient.GetUsername | src/main/java/com/kikkia/dislog/api/DislogClient.kt:80-82 | definition, no contract: a field read; `SetUsername` states what it returns |
| DislogClient.GetAvatarUrl | src/main/java/com/kikkia/dislog/api/DislogClient.kt:93-95 | definition, no contract: a field read; `SetAvatarUrl` states what it returns |
| DislogClient.GetIdentifier | src/main/java/com/kikkia/dislog/api/DislogClient.kt:108-110 | definition, no contract: a field read; `SetIdentifier` states what it returns |
| DislogClient.IsPrintingStackTrace | src/main/java/com/kikkia/dislog/api/DislogClient.kt:123-125 | definition, no contract: a field read; `PrintStackTrace` states what it returns |
| DislogClient.GetWebhooks | src/main/java/com/kikkia/dislog/api/DislogClient.kt:140-142 | definition, no contract: the routes; `AddWebhook` states how they change |
| DislogClient.GetMaxRetries | src/main/java/com/kikkia/dislog/api/DislogClient.kt:155-157 | definition, no contract: a field read; `SetMaxRetries` states what it returns |
| DislogClient.GetPollRate | src/main/java/com/kikkia/dislog/api/DislogClient.kt:169-171 | definition, no contract: a field read; `SetPollRate` states what it returns |
| DislogClient.GetTimeZone | src/main/java/com/kikkia/dislog/api/DislogClient.kt:183-185 | definition, no contract: a field read; `SetTimeZone` states what it returns |
| DislogClient.SetUsername | src/main/java/com/kikkia/dislog/api/DislogClient.kt:75-78 | the getter returns the new name; routes and every other option are unchanged |
| DislogClient.SetAvatarUrl | src/main/java/com/kikkia/dislog/api/DislogClient.kt:88-91 | the getter returns the new URL; nothing else changes |
| DislogClient.SetIdentifier | src/main/java/com/kikkia/dislog/api/DislogClient.kt:103-106 | the getter returns the new identifier; nothing else changes |
| DislogClient.PrintStackTrace | src/main/java/com/kikkia/dislog/api/DislogClient.kt:118-121 | the getter returns the new flag; nothing else changes |
| DislogClient.SetMaxRetries | src/main/java/com/kikkia/dislog/api/DislogClient.kt:150-153 | the getter returns the new budget; nothing else changes |
| DislogClient.SetPollRate | src/main/java/com/kikkia/dislog/api/DislogClient.kt:164-167 | the getter returns the new rate; nothing else changes |
| DislogClient.SetTimeZone | src/main/java/com/kikkia/dislog/api/DislogClient.kt:178-181 | the getter returns the new zone; nothing else changes |
| DislogClient.AddWebhook | src/main/java/com/kikkia/dislog/api/DislogClient.kt:134-138 | the URL becomes the last entry of its level's list (a new singleton list for a new level); other levels and all options are unchanged |
| DislogClient.AddWebhookTwice | src/main/java/com/kikkia/dislog/api/DislogClient.kt:134-137 | adding the same URL twice keeps both entries |
| DislogClient.AddWebhooksCollects | src/main/java/com/kikkia/dislog/api/DislogClient.kt:134-137 | after any series of registrations each level's list is its old list followed by exactly the URLs registered for it, in call order |
| DislogClient.AddWebhookUrls | src/main/java/com/kikkia/dislog/api/DislogClient.kt:135-136 | seen from any level, one registration appends its URL to that level's list exactly when it is the registered level, and the level is present afterwards exactly when it was before or was registered |
| DislogClient.NewBuckets | src/main/java/com/kikkia/dislog/api/DislogClient.kt:35-36 | one new worker per URL, in list order |
| DislogClient.Build | src/main/java/com/kikkia/dislog/api/DislogClient.kt:24-37 | options copied from the builder; the same levels as the builder; for each, one new worker per URL in list order; every worker satisfies the worker invariant |
| DislogClient.FanOut | src/main/java/com/kikkia/dislog/api/DislogClient.kt:52-54 | every worker of the list gets the log at its tail and is otherwise unchanged |
| DislogClient.QueueLog | src/main/java/com/kikkia/dislog/api/DislogClient.kt:51-55 | fails (the `!!` NullPointerException) exactly when the level has no webhooks; otherwise appends the log to every worker of its level and to no other, keeping the worker invariant |
| DislogClient.QueueLogReachesRegisteredUrls | src/main/java/com/kikkia/dislog/api/DislogClient.kt:24-55 | end to end: for a client built from any series of registrations, `queueLog` fails exactly when no URL was registered for the log's level, and otherwise reaches one new worker per registered URL, in registration order, each now holding just that log |

## Left out

- Threads: the infinite loop, `Thread.sleep`, `start()`. `Step` is one loop iteration; its `Idle`/`Backoff` actions carry the sleep length instead of sleeping. A negative sleep (a negative poll rate, or a wrapped back-off) makes `Thread.sleep` throw; nothing in `run()` catches that, so in Dislog's code that worker's thread ends and its queue is never drained again, while the model's `Step` carries on after an `Idle` or `Backoff` of negative length.
- Concurrent, unsynchronised access to the queue by producer threads and the worker; `Run` covers sequential interleavings of enqueues and loop iterations only.
- The HTTP client, `HttpPost`/`StringEntity` and JSON building; an attempt yields a `Payload` value, and the exchange's result is the `Outcome` input. Exceptions thrown while building the request are `TransportError`.
- The two clock reads in one loop iteration are taken as the same `now`.
- Timestamp rendering with `DateTimeFormatter` and the time zone, and stack-trace capture with `printStackTrace`: both are opaque strings.
- The ambient MDC capture: the context map is an explicit optional list of entries in iteration order.
- `println`/`print` diagnostics: they do not affect state.
- Mutating the client's public `var` options after construction.
- Aliasing of the mutable log object: Dislog's `Log` is a data class with `var` fields, queued by reference in every worker of its level and formatted again at each attempt, so a caller that changes the log after `queueLog` changes what every worker posts, retries included. The model enqueues an immutable value, so every attempt posts the log as it was when it was queued.
- HookBucket.BackoffAtLeastOneSecond: holds only while `(reset + 2 - now) * 1000` fits in a `Long`; for a larger reset header the product wraps as `Long` arithmetic does (`BackoffMillis` models the wrap).
- HookBucket.TooManyRequestsBacksOff: stated for `t < Long.MAX_VALUE`; at the maximum, `reset += 1` wraps to `Long.MIN_VALUE` (`SendLog` models that).
- The legacy copies of the classes outside the `com.kikkia.dislog` package are not part of this model.

=== FILE: Config.dfy ===
/** The scalar options a builder collects and a client copies. */
module Config {
  import opened JvmInt

  /** A fixed offset from UTC; it only affects how timestamps are rendered. */
  datatype ZoneOffset = ZoneOffset(totalSeconds: int)

  const UTC: ZoneOffset := ZoneOffset(0)

  /** Webhook display name, avatar, host prefix, stack-trace switch, time
      zone, retry budget and idle poll period (milliseconds). */
  datatype Settings = Settings(
    name: string,
    avatarUrl: string,
    hostIdentifier: string,
    printStackTrace: bool,
    zone: ZoneOffset,
    maxRetries: Int32,
    pollRate: Int64)
}

=== FILE: Constants.dfy ===
/** Default values shared by the builder and the delivery workers. */
module Constants {

  /** Attempts allowed for one log before it is dropped. */
  const MAX_LOG_RETRIES: int := 5

  /** Milliseconds an idle worker sleeps before looking at its queue again. */
  const POLL_RATE: int := 100
}

=== FILE: DislogClient.dfy ===
/** The client: a builder that collects options and webhook routes, the
    client it builds (one delivery worker per registered URL), and the
    fan-out of a log to every worker of its level. */
module DislogClient {
  import opened Wrappers
  import opened JvmInt
  import opened Log
  import opened Config
  import Constants
  import HookBucket
  import Sequences

  const DEFAULT_USERNAME: string := "dislog"
  const DEFAULT_AVATAR_URL: string := "https://i.imgur.com/SmqNOwu.jpg"
  const DEFAULT_IDENTIFIER: string := "dislog"

  // ----- Builder -----

  /** The builder's URL lists per level, and its scalar options. */
  datatype Builder = Builder(urlMap: map<LogLevel, seq<string>>, settings: Settings)

  /** A new builder: no routes, and the default options. */
  function NewBuilder(): (b: Builder)
    ensures b.urlMap == map[]
    ensures GetUsername(b) == DEFAULT_USERNAME && GetIdentifier(b) == DEFAULT_IDENTIFIER
    ensures GetAvatarUrl(b) == DEFAULT_AVATAR_URL
    ensures !IsPrintingStackTrace(b) && GetTimeZone(b) == UTC
    ensures GetMaxRetries(b) == Constants.MAX_LOG_RETRIES && GetPollRate(b) == Constants.POLL_RATE
  {
    Builder(map[], Settings(DEFAULT_USERNAME, DEFAULT_AVATAR_URL, DEFAULT_IDENTIFIER, false, UTC,
                            Constants.MAX_LOG_RETRIES, Constants.POLL_RATE))
  }

  function GetUsername(b: Builder): string { b.settings.name }
  function GetAvatarUrl(b: Builder): string { b.settings.avatarUrl }
  function GetIdentifier(b: Builder): string { b.settings.hostIdentifier }
  function IsPrintingStackTrace(b: Builder): bool { b.settings.printStackTrace }
  function GetTimeZone(b: Builder): ZoneOffset { b.settings.zone }
  function GetMaxRetries(b: Builder): Int32 { b.settings.maxRetries }
  function GetPollRate(b: Builder): Int64 { b.settings.pollRate }
  function GetWebhooks(b: Builder): map<LogLevel, seq<string>> { b.urlMap }

  /** The URLs registered for `level`, empty when there are none. */
  function Urls(b: Builder, level: LogLevel): seq<string>
  {
    if level in b.urlMap then b.urlMap[level] else []
  }

  function SetUsername(b: Builder, name: string): (r: Builder)
    ensures GetUsername(r) == name
    ensures r.urlMap == b.urlMap && r.settings.(name := b.settings.name) == b.settings
  {
    b.(settings := b.settings.(name := name))
  }

  function SetAvatarUrl(b: Builder, url: string): (r: Builder)
    ensures GetAvatarUrl(r) == url
    ensures r.urlMap == b.urlMap && r.settings.(avatarUrl := b.settings.avatarUrl) == b.settings
  {
    b.(settings := b.settings.(avatarUrl := url))
  }

  function SetIdentifier(b: Builder, identifier: string): (r: Builder)
    ensures GetIdentifier(r) == identifier
    ensures r.urlMap == b.urlMap && r.settings.(hostIdentifier := b.settings.hostIdentifier) == b.settings
  {
    b.(settings := b.settings.(hostIdentifier := identifier))
  }

  function PrintStackTrace(b: Builder, enabled: bool): (r: Builder)
    ensures IsPrintingStackTrace(r) == enabled
    ensures r.urlMap == b.urlMap && r.settings.(printStackTrace := b.settings.printStackTrace) == b.settings
  {
    b.(settings := b.settings.(printStackTrace := enabled))
  }

  function SetMaxRetries(b: Builder, retries: Int32): (r: Builder)
    ensures GetMaxRetries(r) == retries
    ensures r.urlMap == b.urlMap && r.settings.(maxRetries := b.settings.maxRetries) == b.settings
  {
    b.(settings := b.settings.(maxRetries := retries))
  }

  function SetPollRate(b: Builder, milliRate: Int64): (r: Builder)
    ensures GetPollRate(r) == milliRate
    ensures r.urlMap == b.urlMap && r.settings.(pollRate := b.settings.pollRate) == b.settings
  {
    b.(settings := b.settings.(pollRate := milliRate))
  }

  function SetTimeZone(b: Builder, zone: ZoneOffset): (r: Builder)
    ensures GetTimeZone(r) == zone
    ensures r.urlMap == b.urlMap && r.settings.(zone := b.settings.zone) == b.settings
  {
    b.(settings := b.settings.(zone := zone))
  }

  /** `addWebhook`: `computeIfPresent` appends to an existing list, then
      `computeIfAbsent` creates the singleton list for a new level. Either
      way the URL ends up last in its level's list, and nothing else moves. */
  function AddWebhook(b: Builder, level: LogLevel, webhookUrl: string): (r: Builder)
    ensures level in r.urlMap && r.urlMap[level] == Urls(b, level) + [webhookUrl]
    ensures r.urlMap.Keys == b.urlMap.Keys + {level}
    ensures forall l :: l in b.urlMap && l != level ==> r.urlMap[l] == b.urlMap[l]
    ensures r.settings == b.settings
  {
    var present :=
      if level in b.urlMap then b.urlMap[level := b.urlMap[level] + [webhookUrl]] else b.urlMap;
    var ensured :=
      if level in present then present else present[level := [webhookUrl]];
    b.(urlMap := ensured)
  }

  /** Registering the same URL twice keeps both entries. */
  lemma AddWebhookTwice(b: Builder, level: LogLevel, webhookUrl: string)
    ensures Urls(AddWebhook(AddWebhook(b, level, webhookUrl), level, webhookUrl), level)
      == Urls(b, level) + [webhookUrl, webhookUrl]
  {
  }

  /** The builder after a series of `addWebhook` calls, in call order. */
  function AddWebhooks(b: Builder, registrations: seq<(LogLevel, string)>): Builder
    decreases |registrations|
  {
    if |registrations| == 0 then b
    else
      var last := registrations[|registrations| - 1];
      AddWebhook(AddWebhooks(b, registrations[..|registrations| - 1]), last.0, last.1)
  }

  /** The URLs among `registrations` that were registered for `level`, in order. */
  function UrlsFor(registrations: seq<(LogLevel, string)>, level: LogLevel): seq<string>
    decreases |registrations|
  {
    if |registrations| == 0 then []
    else
      var last := registrations[|registrations| - 1];
      UrlsFor(registrations[..|registrations| - 1], level) + (if last.0 == level then [last.1] else [])
  }

  /** After any series of registrations, each level's list is its earlier
      list followed by exactly the URLs registered for that level, in call
      order; the options are untouched. */
  lemma {:induction false} AddWebhooksCollects(b: Builder, registrations: seq<(LogLevel, string)>, level: LogLevel)
    ensures Urls(AddWebhooks(b, registrations), level) == Urls(b, level) + UrlsFor(registrations, level)
    ensures level in AddWebhooks(b, registrations).urlMap <==> level in b.urlMap || |UrlsFor(registrations, level)| > 0
    ensures AddWebhooks(b, registrations).settings == b.settings
    decreases |registrations|
  {
    if |registrations| > 0 {
      var init := registrations[..|registrations| - 1];
      var last := registrations[|registrations| - 1];
      var mid := AddWebhooks(b, init);
      AddWebhooksCollects(b, init, level);
      AddWebhookUrls(mid, last.0, last.1, level);
      Sequences.Assoc(Urls(b, level), UrlsFor(init, level), if last.0 == level then [last.1] else []);
    }
  }

  /** One registration, seen from any level. */
  lemma AddWebhookUrls(b: Builder, registered: LogLevel, webhookUrl: string, level: LogLevel)
    ensures Urls(AddWebhook(b, registered, webhookUrl), level)
      == Urls(b, level) + (if registered == level then [webhookUrl] else [])
    ensures level in AddWebhook(b, registered, webhookUrl).urlMap <==> level in b.urlMap || registered == level
  {
    if registered != level {
      assert Urls(b, level) + [] == Urls(b, level);
    }
  }

  // ----- Client -----

  /** A built client: the workers per level, and the options copied from
      the builder. */
  datatype Client = Client(buckets: map<LogLevel, seq<HookBucket.Bucket>>, settings: Settings)

  /** One fresh worker per URL, in list order. */
  function NewBuckets(urls: seq<string>): (r: seq<HookBucket.Bucket>)
    ensures |r| == |urls|
    ensures forall i :: 0 <= i < |urls| ==> r[i] == HookBucket.New(urls[i])
    decreases |urls|
  {
    if |urls| == 0 then [] else [HookBucket.New(urls[0])] + NewBuckets(urls[1..])
  }

  /** Every worker of the client satisfies the worker invariant. */
  predicate Valid(c: Client)
  {
    forall l, i :: l in c.buckets && 0 <= i < |c.buckets[l]| ==>
      HookBucket.Valid(c.buckets[l][i], c.settings.maxRetries)
  }

  /** The client's construction: options copied, and for each level one new
      worker per URL, in list order. */
  function Build(b: Builder): (c: Client)
    ensures c.settings == b.settings
    ensures c.buckets.Keys == b.urlMap.Keys
    ensures forall l :: l in b.urlMap ==> |c.buckets[l]| == |b.urlMap[l]|
    ensures forall l, i :: l in b.urlMap && 0 <= i < |b.urlMap[l]| ==>
      c.buckets[l][i] == HookBucket.New(b.urlMap[l][i])
    ensures Valid(c)
  {
    var settings := Settings(GetUsername(b), GetAvatarUrl(b), GetIdentifier(b),
      IsPrintingStackTrace(b), GetTimeZone(b), GetMaxRetries(b), GetPollRate(b));
    Client(map l | l in GetWebhooks(b) :: NewBuckets(GetWebhooks(b)[l]), settings)
  }

  /** Raised by `queueLog` when no webhook is registered for the log's level. */
  datatype ClientError = NullPointer

  /** The log added at the tail of every worker in the list. */
  function FanOut(buckets: seq<HookBucket.Bucket>, log: Log): (r: seq<HookBucket.Bucket>)
    ensures |r| == |buckets|
    ensures forall i :: 0 <= i < |buckets| ==>
      r[i].queue == buckets[i].queue + [log] && r[i].(queue := buckets[i].queue) == buckets[i]
    decreases |buckets|
  {
    if |buckets| == 0 then []
    else [HookBucket.QueueLog(buckets[0], log)] + FanOut(buckets[1..], log)
  }

  /** `queueLog`: the log is appended to the queue of every worker of its
      level and of no other; a level without webhooks throws. */
  function QueueLog(c: Client, log: Log): (r: Result<Client, ClientError>)
    ensures r.Failure? <==> log.level !in c.buckets
    ensures r.Success? ==>
      && r.value.settings == c.settings
      && r.value.buckets.Keys == c.buckets.Keys
      && (forall l :: l in c.buckets && l != log.level ==> r.value.buckets[l] == c.buckets[l])
      && |r.value.buckets[log.level]| == |c.buckets[log.level]|
      && (forall i :: 0 <= i < |c.buckets[log.level]| ==>
            r.value.buckets[log.level][i] == HookBucket.QueueLog(c.buckets[log.level][i], log))
    ensures r.Success? && Valid(c) ==> Valid(r.value)
  {
    if log.level in c.buckets then
      Success(c.(buckets := c.buckets[log.level := FanOut(c.buckets[log.level], log)]))
    else
      Failure(NullPointer)
  }

  /** End to end: a client built from a series of registrations on a new
      builder hands a log to exactly one worker per URL registered for the
      log's level, in registration order, and fails when there is none. */
  lemma QueueLogReachesRegisteredUrls(registrations: seq<(LogLevel, string)>, log: Log)
    ensures var c := Build(AddWebhooks(NewBuilder(), registrations));
      var urls := UrlsFor(registrations, log.level);
      var r := QueueLog(c, log);
      && (r.Failure? <==> |urls| == 0)
      && (r.Success? ==>
            && |r.value.buckets[log.level]| == |urls|
            && forall i :: 0 <= i < |urls| ==>
                 && r.value.buckets[log.level][i].hookLink == urls[i]
                 && r.value.buckets[log.level][i].queue == [log])
  {
    var b := AddWebhooks(NewBuilder(), registrations);
    AddWebhooksCollects(NewBuilder(), registrations, log.level);
    assert Urls(b, log.level) == UrlsFor(registrations, log.level);
  }
}

=== FILE: FormattingUtils.dfy ===
/** The text of the message a worker posts for one log: header, exception,
    context map, truncation to one chunk with fence balancing, trailer.
    The timestamp and the stack-trace text arrive already rendered. */
module FormattingUtils {
  import opened Wrappers
  import opened Log

  /** Longest body kept; everything after it is discarded. */
  const CHUNK_SIZE: nat := 1950
  const FENCE: string := "```"
  const TRUNCATION_MARKER: string := "\n**Truncated due to length**"
  /** A spacer line that separates consecutive messages in the channel. */
  const TRAILER: string := "\n_ _"
  /** CHUNK_SIZE plus a closing fence, the marker and the trailer. */
  const MAX_MESSAGE_LENGTH: nat := 1985

  // ----- Chunking -----

  /** The strings of `chunks` one after another. */
  function Concat(chunks: seq<string>): string
  {
    if |chunks| == 0 then "" else chunks[0] + Concat(chunks[1..])
  }

  /** Kotlin's `chunked(size)`: consecutive pieces of `size` characters, the
      last one possibly shorter; no pieces at all for the empty string. */
  function Chunked(s: string, size: nat): (chunks: seq<string>)
    requires size > 0
    ensures Concat(chunks) == s
    ensures forall i :: 0 <= i < |chunks| ==> 0 < |chunks[i]| <= size
    ensures forall i :: 0 <= i < |chunks| - 1 ==> |chunks[i]| == size
    decreases |s|
  {
    if |s| == 0 then []
    else if |s| <= size then [s]
    else [s[..size]] + Chunked(s[size..], size)
  }

  /** The first chunk exists exactly when the string is non-empty, and it is
      the string's first `size` characters (all of it when shorter). */
  lemma FirstChunk(s: string, size: nat)
    requires size > 0
    ensures |Chunked(s, size)| > 0 <==> |s| > 0
    ensures |s| > 0 ==> Chunked(s, size)[0] == s[..if |s| < size then |s| else size]
  {
  }

  // ----- Backtick counting -----

  /** Number of backtick characters in `s`. Dislog's code counts every
      character that occurs in "```", that is, single backticks. */
  function Backticks(s: string): nat
  {
    if |s| == 0 then 0 else (if s[0] == '`' then 1 else 0) + Backticks(s[1..])
  }

  lemma {:induction false} BackticksAppend(a: string, b: string)
    ensures Backticks(a + b) == Backticks(a) + Backticks(b)
    decreases |a|
  {
    if |a| == 0 {
      assert a + b == b;
    } else {
      assert (a + b)[1..] == a[1..] + b;
      BackticksAppend(a[1..], b);
    }
  }

  /** Text without a backtick contributes nothing to the count. */
  lemma {:induction false} NoBackticks(s: string)
    requires '`' !in s
    ensures Backticks(s) == 0
    decreases |s|
  {
    if |s| > 0 {
      assert s[0] in s;
      NoBackticks(s[1..]);
    }
  }

  /** The count agrees with an independent definition: the multiplicity of
      the backtick in the multiset of the string's characters. */
  lemma {:induction false} BackticksCountsOccurrences(s: string)
    ensures Backticks(s) == multiset(s)['`']
    decreases |s|
  {
    if |s| > 0 {
      assert s == [s[0]] + s[1..];
      assert multiset(s) == multiset{s[0]} + multiset(s[1..]);
      BackticksCountsOccurrences(s[1..]);
    }
  }

  lemma FenceBackticks()
    ensures Backticks(FENCE) == 3
  {
  }

  lemma MarkerBackticks()
    ensures Backticks(TRUNCATION_MARKER) == 0
  {
    NoBackticks(TRUNCATION_MARKER);
  }

  lemma TrailerBackticks()
    ensures Backticks(TRAILER) == 0
  {
    NoBackticks(TRAILER);
  }

  // ----- Body composition -----

  /** "`timestamp` `host:` message". */
  function Header(timestamp: string, hostIdentifier: string, message: string): string
  {
    "`" + timestamp + "` `" + hostIdentifier + ":` " + message
  }

  /** A Kotlin string template renders a null string as "null". */
  function Template(s: Option<string>): string
  {
    match s
    case Some(t) => t
    case None => "null"
  }

  /** The exception's message as inline code on its own line, then, when
      stack traces are switched on, the stack trace in a fenced block. */
  function ExceptionSection(exception: Option<Exception>, printStackTrace: bool): (r: string)
    ensures exception.None? ==> r == ""
    ensures exception.Some? ==>
      var line := "\n`" + Template(exception.value.message) + "`\n";
      && line <= r
      && (printStackTrace <==> |r| > |line|)
      && (printStackTrace ==> r[|line|..] == FENCE + exception.value.stackTrace + FENCE + "\n")
  {
    match exception
    case None => ""
    case Some(e) =>
      var line := "\n`" + Template(e.message) + "`\n";
      if printStackTrace then line + FENCE + e.stackTrace + FENCE + "\n" else line
  }

  /** One context entry: "key: {\n  value\n}\n". */
  function MdcEntry(key: string, value: string): string
  {
    key + ": {\n  " + value + "\n}\n"
  }

  /** The entries rendered one after another, in iteration order. */
  function MdcEntries(entries: seq<(string, string)>): string
  {
    if |entries| == 0 then "" else MdcEntry(entries[0].0, entries[0].1) + MdcEntries(entries[1..])
  }

  /** Rendering a context map is rendering its entries one at a time:
      splitting the entries anywhere splits the text at the same place. */
  lemma {:induction false} MdcEntriesAppend(a: seq<(string, string)>, b: seq<(string, string)>)
    ensures MdcEntries(a + b) == MdcEntries(a) + MdcEntries(b)
    decreases |a|
  {
    if |a| == 0 {
      assert a + b == b;
    } else {
      assert (a + b)[0] == a[0];
      assert (a + b)[1..] == a[1..] + b;
      MdcEntriesAppend(a[1..], b);
    }
  }

  /** The fenced "MDC:" block, present whenever a context map was captured,
      even an empty one. */
  function MdcSection(mdc: Option<seq<(string, string)>>): (r: string)
    ensures mdc.None? <==> r == ""
    ensures mdc == Some([]) ==> r == "\nMDC:``````"
    ensures mdc.Some? ==>
      && |r| == |MdcEntries(mdc.value)| + 11
      && r[..8] == "\nMDC:```" && r[|r| - 3..] == FENCE
      && r[8..|r| - 3] == MdcEntries(mdc.value)
  {
    match mdc
    case None => ""
    case Some(entries) => "\nMDC:" + FENCE + MdcEntries(entries) + FENCE
  }

  /** The untruncated body. It starts with the header, so it is never empty. */
  function ComposeBody(log: Log, printStackTrace: bool, hostIdentifier: string, timestamp: string): (body: string)
    ensures Header(timestamp, hostIdentifier, log.message) <= body
    ensures |body| > 0
    ensures log.exception.None? && log.mdc.None? ==> body == Header(timestamp, hostIdentifier, log.message)
    // after the header comes the exception section, and the context block closes the body
    ensures var h := |Header(timestamp, hostIdentifier, log.message)|;
      var m := MdcSection(log.mdc);
      && |body| >= h + |m|
      && body[|body| - |m|..] == m
      && body[h..|body| - |m|] == ExceptionSection(log.exception, printStackTrace)
  {
    Header(timestamp, hostIdentifier, log.message)
      + ExceptionSection(log.exception, printStackTrace)
      + MdcSection(log.mdc)
  }

  // ----- Truncation and trailer -----

  /** Appends a closing fence exactly when the chunk holds an odd number of
      backticks, so that the result holds an even number. */
  function CloseFence(chunk: string): (r: string)
    ensures Backticks(r) % 2 == 0
    ensures chunk <= r
    ensures Backticks(chunk) % 2 == 1 <==> |r| > |chunk|
    ensures |r| > |chunk| ==> r[|chunk|..] == FENCE
  {
    if Backticks(chunk) % 2 == 1 then
      FenceBackticks();
      BackticksAppend(chunk, FENCE);
      chunk + FENCE
    else chunk
  }

  /** Keeps the first chunk of `body`; when that chunk is a full one, closes
      an odd backtick count with a fence and appends the truncation marker;
      then appends the trailer. */
  function Finish(body: string): (r: string)
    requires |body| > 0
    ensures |r| >= |TRAILER| && r[|r| - |TRAILER|..] == TRAILER
    ensures |r| <= MAX_MESSAGE_LENGTH
    ensures |body| < CHUNK_SIZE ==> r == body + TRAILER
    ensures |body| >= CHUNK_SIZE ==>
      && |r| >= CHUNK_SIZE + |TRUNCATION_MARKER + TRAILER|
      && r[..CHUNK_SIZE] == body[..CHUNK_SIZE]
      && r[|r| - |TRUNCATION_MARKER + TRAILER|..] == TRUNCATION_MARKER + TRAILER
      && Backticks(r) % 2 == 0
      && (r[CHUNK_SIZE] == '`' <==> Backticks(body[..CHUNK_SIZE]) % 2 == 1)
    ensures |body| >= CHUNK_SIZE ==>
      r == body[..CHUNK_SIZE] + (if Backticks(body[..CHUNK_SIZE]) % 2 == 1 then FENCE else "")
             + TRUNCATION_MARKER + TRAILER
  {
    FirstChunk(body, CHUNK_SIZE);
    var chunk := Chunked(body, CHUNK_SIZE)[0];
    if |chunk| >= CHUNK_SIZE then
      var closed := CloseFence(chunk);
      var tail := TRUNCATION_MARKER + TRAILER;
      TailFacts();
      TruncatedShape(chunk, closed, tail, |TRAILER|);
      ClosedShape(chunk, closed, tail);
      closed + tail
    else
      chunk + TRAILER
  }

  /** The fenced chunk is the chunk followed by the fence exactly when its
      count is odd, and the tail goes after it. */
  lemma ClosedShape(chunk: string, closed: string, tail: string)
    requires closed == CloseFence(chunk)
    requires tail == TRUNCATION_MARKER + TRAILER
    ensures closed + tail
      == chunk + (if Backticks(chunk) % 2 == 1 then FENCE else "") + TRUNCATION_MARKER + TRAILER
  {
    if Backticks(chunk) % 2 == 1 {
      assert closed == chunk + closed[|chunk|..];
    } else {
      assert closed == chunk + "";
    }
  }

  /** The marker-and-trailer tail: 32 characters, no backtick, starting
      with a line break and ending with the trailer. */
  lemma TailFacts()
    ensures var tail := TRUNCATION_MARKER + TRAILER;
      && |tail| == 32
      && tail[0] == '\n'
      && Backticks(tail) == 0
      && tail[|tail| - |TRAILER|..] == TRAILER
  {
    MarkerBackticks();
    TrailerBackticks();
    BackticksAppend(TRUNCATION_MARKER, TRAILER);
  }

  /** Appending a backtick-free tail after the (possibly fenced) chunk. */
  lemma TruncatedShape(chunk: string, closed: string, tail: string, k: nat)
    requires chunk <= closed
    requires |closed| == |chunk| || (|closed| > |chunk| && closed[|chunk|] == '`')
    requires 0 < |tail| && k <= |tail| && Backticks(tail) == 0
    ensures (closed + tail)[..|chunk|] == chunk
    ensures (closed + tail)[|chunk|] == if |closed| > |chunk| then '`' else tail[0]
    ensures (closed + tail)[|closed + tail| - k..] == tail[|tail| - k..]
    ensures Backticks(closed + tail) == Backticks(closed)
  {
    BackticksAppend(closed, tail);
    PrefixOfAppend(chunk, closed, tail);
    SuffixOfAppend(closed, tail, k);
  }

  lemma PrefixOfAppend(p: string, a: string, b: string)
    requires p <= a
    ensures (a + b)[..|p|] == p
  {
    assert (a + b)[..|p|] == a[..|p|];
  }

  lemma SuffixOfAppend(a: string, b: string, k: nat)
    requires k <= |b|
    ensures (a + b)[|a + b| - k..] == b[|b| - k..]
  {
    assert (a + b)[|a|..] == b;
    assert (a + b)[|a + b| - k..] == (a + b)[|a|..][|b| - k..];
  }

  /** `generateLogBody`: the message text posted for `log`. It ends with the
      trailer and never exceeds MAX_MESSAGE_LENGTH; a short body is kept
      whole, a long one is cut to its first CHUNK_SIZE characters, closed
      with a fence exactly when those hold an odd number of backticks, and
      marked as truncated. */
  function GenerateLogBody(log: Log, printStackTrace: bool, hostIdentifier: string, timestamp: string): (r: string)
    ensures |r| >= |TRAILER| && r[|r| - |TRAILER|..] == TRAILER
    ensures |r| <= MAX_MESSAGE_LENGTH
    ensures var body := ComposeBody(log, printStackTrace, hostIdentifier, timestamp);
      && (|body| < CHUNK_SIZE ==> r == body + TRAILER)
      && (|body| >= CHUNK_SIZE ==>
            && |r| >= CHUNK_SIZE + |TRUNCATION_MARKER + TRAILER|
            && r[..CHUNK_SIZE] == body[..CHUNK_SIZE]
            && r[|r| - |TRUNCATION_MARKER + TRAILER|..] == TRUNCATION_MARKER + TRAILER
            && Backticks(r) % 2 == 0
            && (r[CHUNK_SIZE] == '`' <==> Backticks(body[..CHUNK_SIZE]) % 2 == 1)
            && r == body[..CHUNK_SIZE] + (if Backticks(body[..CHUNK_SIZE]) % 2 == 1 then FENCE else "")
                      + TRUNCATION_MARKER + TRAILER)
  {
    Finish(ComposeBody(log, printStackTrace, hostIdentifier, timestamp))
  }

  /** What a reader can recover from a posted message: the part of the body
      it shows. The two cases are told apart by length alone, since a kept
      short body yields at most CHUNK_SIZE + 3 characters and a truncated one
      at least CHUNK_SIZE + 32. */
  function VisibleBody(message: string): string
  {
    if |message| < CHUNK_SIZE + |TRAILER| then
      (if |message| >= |TRAILER| then message[..|message| - |TRAILER|] else "")
    else if |message| >= CHUNK_SIZE then message[..CHUNK_SIZE] else ""
  }

  /** Formatting never alters the characters it keeps: the posted message
      determines exactly the first CHUNK_SIZE characters of the body (all of
      it when shorter), so only the tail is lost. */
  lemma VisibleBodyOfMessage(log: Log, printStackTrace: bool, hostIdentifier: string, timestamp: string)
    ensures var body := ComposeBody(log, printStackTrace, hostIdentifier, timestamp);
      VisibleBody(GenerateLogBody(log, printStackTrace, hostIdentifier, timestamp))
        == body[..if |body| < CHUNK_SIZE then |body| else CHUNK_SIZE]
  {
  }
}

=== FILE: HookBucket.dfy ===
/** The delivery worker of one webhook URL: its FIFO queue, the rate-limit
    state learned from response headers, and the retry counter of the log
    at the head of the queue. One iteration of the worker's polling loop,
    together with the handling of a send attempt, is the pure function
    `Step`; time and the outcome of the HTTP request are its inputs. */
module HookBucket {
  import opened Wrappers
  import opened JvmInt
  import opened Log
  import opened Config
  import FormattingUtils
  import Sequences

  /** A reading of the clock in epoch seconds, `currentTimeMillis() / 1000`;
      its range keeps `now - 1` inside a `Long`. */
  type Seconds = x: int | -9223372036854775 <= x <= 9223372036854775

  /** Worker state. `remaining` and `reset` are the last values read from the
      rate-limit headers (`reset` in epoch seconds); `tries` counts the
      failed attempts at the head of the queue. */
  datatype Bucket = Bucket(
    hookLink: string,
    queue: seq<Log>,
    remaining: Int32,
    reset: Int64,
    tries: Int32)

  /** What the HTTP exchange produced. `remainingHeader` and `resetHeader`
      are the "X-RateLimit-Remaining" and "X-RateLimit-Reset" headers; each
      is `None` when it is missing or its text is not a decimal integer, and
      otherwise its value. */
  datatype Outcome =
    | TransportError
    | Response(status: int, remainingHeader: Option<int>, resetHeader: Option<int>)

  /** The JSON object posted to the webhook. */
  datatype Payload = Payload(avatarUrl: string, username: string, content: string)

  /** What one event did, as seen from outside the worker. */
  datatype Action =
    | Queued(log: Log)
    | Idle(millis: int)
    | Backoff(millis: int)
    | Dropped(log: Log)
    | Delivered(log: Log, payload: Payload)
    | Failed(log: Log, payload: Payload)

  datatype Stepped = Stepped(bucket: Bucket, action: Action)

  /** A freshly constructed worker. */
  function New(hookLink: string): (b: Bucket)
    ensures b.hookLink == hookLink && |b.queue| == 0
    ensures b.remaining == 0 && b.reset == 0 && b.tries == 0
  {
    Bucket(hookLink, [], 0, 0, 0)
  }

  /** The largest retry counter a worker reaches: negative budgets act as 0. */
  function Budget(maxRetries: int): nat
  {
    if maxRetries > 0 then maxRetries else 0
  }

  /** The invariant every reachable worker state keeps. */
  predicate Valid(b: Bucket, maxRetries: int)
  {
    && 0 <= b.tries <= Budget(maxRetries)
    && (|b.queue| == 0 ==> b.tries == 0)
  }

  /** `queueLog`: add at the tail. */
  function QueueLog(b: Bucket, log: Log): (r: Bucket)
    ensures r.queue == b.queue + [log]
    ensures r.(queue := b.queue) == b
    ensures forall m :: Valid(b, m) ==> Valid(r, m)
  {
    b.(queue := b.queue + [log])
  }

  // ----- Header parsing -----

  /** `toInt()` of the remaining-requests header; fails outside `Int`. */
  function ParseInt(header: Option<int>): (r: Option<Int32>)
    // a successful read gives back the header's own value, and reading the
    // same header as a `Long` agrees with it
    ensures r.Some? ==> header == Some(r.value as int) && ParseLong(header) == Some(r.value as int)
    // a read fails only on a missing header or a value outside `Int`
    ensures r.None? ==> header.None? || header.value < INT_MIN || INT_MAX < header.value
  {
    if header.Some? && INT_MIN <= header.value <= INT_MAX then Some(header.value) else None
  }

  /** `toLong()` of the reset header; fails outside `Long`. */
  function ParseLong(header: Option<int>): (r: Option<Int64>)
    // a successful read gives back the header's own value
    ensures r.Some? ==> header == Some(r.value as int)
    // a read fails only on a missing header or a value outside `Long`
    ensures r.None? ==> header.None? || header.value < LONG_MIN || LONG_MAX < header.value
  {
    if header.Some? && LONG_MIN <= header.value <= LONG_MAX then Some(header.value) else None
  }

  /** The outcomes after which the log counts as delivered: a 2xx response
      whose two rate-limit headers both parse. */
  predicate Accepted(o: Outcome)
  {
    && o.Response?
    && 200 <= o.status < 300
    && ParseInt(o.remainingHeader).Some?
    && ParseLong(o.resetHeader).Some?
  }

  // ----- The polling loop -----

  /** Whether the loop may send now: requests remain, or the reset time lies
      more than one second in the past. */
  predicate CanSend(b: Bucket, now: Seconds)
  {
    b.remaining > 0 || b.reset < now - 1
  }

  /** Permission to send only grows with the clock: once the reset time lies
      in the past, it stays there. */
  lemma CanSendLater(b: Bucket, now: Seconds, later: Seconds)
    requires CanSend(b, now) && now <= later
    ensures CanSend(b, later)
  {
  }

  /** The rate-limit sleep `(reset + 2 - now) * 1000`, evaluated step by step
      in `Long` arithmetic: a `Long` congruent to the exact product modulo
      2^64, and equal to it whenever the product fits. */
  function BackoffMillis(reset: Int64, now: Seconds): (r: Int64)
    ensures (r - (reset + 2 - now) * 1000) % LONG_MODULUS == 0
    ensures LONG_MIN <= (reset + 2 - now) * 1000 <= LONG_MAX ==> r == (reset + 2 - now) * 1000
  {
    var sum := WrapInt64(reset + 2);
    var diff := WrapInt64(sum - now);
    var r := WrapInt64(diff * 1000);
    BackoffCongruent(reset + 2 - now, sum - now, diff, r);
    r
  }

  /** The bookkeeping behind `BackoffMillis`: each wrapped step stays
      congruent to the exact value. */
  lemma BackoffCongruent(exact: int, unwrapped: int, diff: int, r: int)
    requires (exact - unwrapped) % LONG_MODULUS == 0
    requires (unwrapped - diff) % LONG_MODULUS == 0
    requires (diff * 1000 - r) % LONG_MODULUS == 0
    requires LONG_MIN <= r <= LONG_MAX
    ensures (r - exact * 1000) % LONG_MODULUS == 0
    ensures LONG_MIN <= exact * 1000 <= LONG_MAX ==> r == exact * 1000
  {
    LongCongruentSum(exact - unwrapped, unwrapped - diff);
    LongCongruentScale(exact - diff, 1000);
    assert (exact - diff) * 1000 == exact * 1000 - diff * 1000;
    LongCongruentSum(exact * 1000 - diff * 1000, diff * 1000 - r);
    LongCongruentScale(exact * 1000 - r, -1);
    assert (exact * 1000 - r) * -1 == r - exact * 1000;
    if LONG_MIN <= exact * 1000 <= LONG_MAX {
      LongCongruentEqual(r, exact * 1000);
    }
  }

  /** The message posted for the head of the queue: the configured avatar
      and name, and content of at most MAX_MESSAGE_LENGTH characters that
      ends with the trailer. */
  function PayloadFor(s: Settings, log: Log, timestamp: string): (p: Payload)
    ensures p.avatarUrl == s.avatarUrl && p.username == s.name
    ensures |p.content| <= FormattingUtils.MAX_MESSAGE_LENGTH
    ensures |p.content| >= |FormattingUtils.TRAILER|
    ensures p.content[|p.content| - |FormattingUtils.TRAILER|..] == FormattingUtils.TRAILER
    // the content is the log's composed body, kept whole when short, and
    // otherwise cut to one chunk, fenced on an odd backtick count and marked
    ensures var body := FormattingUtils.ComposeBody(log, s.printStackTrace, s.hostIdentifier, timestamp);
      && (|body| < FormattingUtils.CHUNK_SIZE ==> p.content == body + FormattingUtils.TRAILER)
      && (|body| >= FormattingUtils.CHUNK_SIZE ==>
            p.content == body[..FormattingUtils.CHUNK_SIZE]
              + (if FormattingUtils.Backticks(body[..FormattingUtils.CHUNK_SIZE]) % 2 == 1
                 then FormattingUtils.FENCE else "")
              + FormattingUtils.TRUNCATION_MARKER + FormattingUtils.TRAILER)
    // so the content shows the log's composed body, cut to one chunk
    ensures var body := FormattingUtils.ComposeBody(log, s.printStackTrace, s.hostIdentifier, timestamp);
      FormattingUtils.VisibleBody(p.content)
        == body[..if |body| < FormattingUtils.CHUNK_SIZE then |body| else FormattingUtils.CHUNK_SIZE]
  {
    FormattingUtils.VisibleBodyOfMessage(log, s.printStackTrace, s.hostIdentifier, timestamp);
    Payload(s.avatarUrl, s.name,
      FormattingUtils.GenerateLogBody(log, s.printStackTrace, s.hostIdentifier, timestamp))
  }

  /** `sendLog`: one attempt at the head of the queue. Any failure, including
      a missing or unparsable header on a 2xx response, adds one to `tries`
      and keeps the log; the headers that were read before the failure stay
      written. */
  function SendLog(s: Settings, b: Bucket, timestamp: string, outcome: Outcome): (r: Stepped)
    requires |b.queue| > 0
    ensures r.action.Delivered? || r.action.Failed?
    ensures r.action.log == b.queue[0]
    ensures r.action.payload == PayloadFor(s, b.queue[0], timestamp)
    ensures r.action.Delivered? <==> Accepted(outcome)
    ensures r.action.Delivered? ==> r.bucket.queue == b.queue[1..] && r.bucket.tries == 0
    ensures r.action.Failed? ==> r.bucket.queue == b.queue && r.bucket.tries == WrapInt32(b.tries + 1)
    ensures r.bucket.hookLink == b.hookLink
    // rate-limit state: untouched without a parsable remaining header ...
    ensures (outcome.TransportError? || ParseInt(outcome.remainingHeader).None?) ==>
      r.bucket.remaining == b.remaining && r.bucket.reset == b.reset
    // ... partly overwritten when only the reset header fails ...
    ensures outcome.Response? && ParseInt(outcome.remainingHeader).Some? && ParseLong(outcome.resetHeader).None? ==>
      r.bucket.remaining == outcome.remainingHeader.value && r.bucket.reset == b.reset
    // ... overwritten whatever the status when both parse, and forced into back-off on 429
    ensures outcome.Response? && ParseInt(outcome.remainingHeader).Some? && ParseLong(outcome.resetHeader).Some? ==>
      if outcome.status == 429 then
        r.bucket.remaining == 0 && r.bucket.reset == WrapInt64(outcome.resetHeader.value + 1)
      else
        r.bucket.remaining == outcome.remainingHeader.value && r.bucket.reset == outcome.resetHeader.value
  {
    var log := b.queue[0];
    var payload := PayloadFor(s, log, timestamp);
    var failed := b.(tries := WrapInt32(b.tries + 1));
    match outcome
    case TransportError => Stepped(failed, Failed(log, payload))
    case Response(status, remainingHeader, resetHeader) =>
      match ParseInt(remainingHeader)
      case None => Stepped(failed, Failed(log, payload))
      case Some(remaining) =>
        match ParseLong(resetHeader)
        case None => Stepped(failed.(remaining := remaining), Failed(log, payload))
        case Some(reset) =>
          if status < 200 || status >= 300 then
            if status == 429 then
              Stepped(failed.(remaining := 0, reset := WrapInt64(reset + 1)), Failed(log, payload))
            else
              Stepped(failed.(remaining := remaining, reset := reset), Failed(log, payload))
          else
            Stepped(b.(remaining := remaining, reset := reset, tries := 0, queue := b.queue[1..]),
              Delivered(log, payload))
  }

  /** One iteration of the worker loop at time `now`. `timestamp` is the
      rendered clock the formatter would read; `outcome` is what the HTTP
      request returns if one is made. */
  function Step(s: Settings, b: Bucket, now: Seconds, timestamp: string, outcome: Outcome): (r: Stepped)
    ensures r.bucket.hookLink == b.hookLink
    // sleeping leaves the state alone
    ensures r.action.Backoff? <==> !CanSend(b, now)
    ensures r.action.Idle? <==> CanSend(b, now) && |b.queue| == 0
    ensures r.action.Backoff? ==> r.bucket == b && r.action.millis == BackoffMillis(b.reset, now)
    ensures r.action.Idle? ==> r.bucket == b && r.action.millis == s.pollRate
    // removal happens only at the head, and only on delivery or drop
    ensures (r.action.Delivered? || r.action.Dropped?) ==>
      |b.queue| > 0 && r.action.log == b.queue[0] && r.bucket.queue == b.queue[1..] && r.bucket.tries == 0
    ensures !(r.action.Delivered? || r.action.Dropped?) ==> r.bucket.queue == b.queue
    // attempts happen only within the budget, drops only once it is spent
    ensures (r.action.Delivered? || r.action.Failed?) <==>
      CanSend(b, now) && |b.queue| > 0 && b.tries < s.maxRetries
    ensures r.action.Dropped? <==> CanSend(b, now) && |b.queue| > 0 && b.tries >= s.maxRetries
    ensures r.action.Delivered? <==> CanSend(b, now) && |b.queue| > 0 && b.tries < s.maxRetries && Accepted(outcome)
    ensures r.action.Failed? ==> r.action.log == b.queue[0] && r.bucket.tries == b.tries + 1
    ensures (r.action.Delivered? || r.action.Failed?) ==> r == SendLog(s, b, timestamp, outcome)
    ensures r.action.Dropped? ==> r.bucket.remaining == b.remaining && r.bucket.reset == b.reset
    ensures !r.action.Queued?
    ensures Valid(b, s.maxRetries) ==> Valid(r.bucket, s.maxRetries)
  {
    if CanSend(b, now) then
      if |b.queue| > 0 then
        if b.tries < s.maxRetries then
          SendLog(s, b, timestamp, outcome)
        else
          Stepped(b.(queue := b.queue[1..], tries := 0), Dropped(b.queue[0]))
      else
        Stepped(b, Idle(s.pollRate))
    else
      Stepped(b, Backoff(BackoffMillis(b.reset, now)))
  }

  /** The rate-limit sleep lasts at least one second whenever it is entered,
      as long as `(reset + 2 - now) * 1000` fits in a `Long`. */
  lemma BackoffAtLeastOneSecond(b: Bucket, now: Seconds)
    requires !CanSend(b, now)
    requires b.reset + 2 - now <= LONG_MAX / 1000
    ensures BackoffMillis(b.reset, now) == (b.reset + 2 - now) * 1000
    ensures BackoffMillis(b.reset, now) >= 1000
  {
  }

  /** After a 429 whose reset header reads `t`, the worker holds off exactly
      until the clock passes `t + 2`. */
  lemma TooManyRequestsBacksOff(s: Settings, b: Bucket, now: Seconds, timestamp: string,
                                 remaining: int, t: int, later: Seconds)
    requires CanSend(b, now) && |b.queue| > 0 && b.tries < s.maxRetries
    requires INT_MIN <= remaining <= INT_MAX && LONG_MIN <= t < LONG_MAX
    ensures var r := Step(s, b, now, timestamp, Response(429, Some(remaining), Some(t)));
      && r.action.Failed?
      && r.bucket.queue == b.queue
      && r.bucket.remaining == 0
      && r.bucket.reset == t + 1
      && (CanSend(r.bucket, later) <==> later > t + 2)
  {
  }

  // ----- Runs: producers and the worker interleaved -----

  /** Something that happens to one worker: a producer enqueues a log, or the
      worker runs one loop iteration. */
  datatype Event =
    | Enqueue(log: Log)
    | Tick(now: Seconds, timestamp: string, outcome: Outcome)

  datatype History = History(bucket: Bucket, actions: seq<Action>)

  function Apply(s: Settings, b: Bucket, e: Event): Stepped
  {
    match e
    case Enqueue(log) => Stepped(QueueLog(b, log), Queued(log))
    case Tick(now, timestamp, outcome) => Step(s, b, now, timestamp, outcome)
  }

  /** The events applied in order, one action per event. */
  function Run(s: Settings, b: Bucket, events: seq<Event>): (t: History)
    ensures |t.actions| == |events|
    ensures t.bucket.hookLink == b.hookLink
    ensures Valid(b, s.maxRetries) ==> Valid(t.bucket, s.maxRetries)
    decreases |events|
  {
    if |events| == 0 then History(b, [])
    else
      var first := Apply(s, b, events[0]);
      var rest := Run(s, first.bucket, events[1..]);
      History(rest.bucket, [first.action] + rest.actions)
  }

  /** The logs producers enqueued, in order. */
  function Enqueued(events: seq<Event>): seq<Log>
  {
    if |events| == 0 then []
    else (if events[0].Enqueue? then [events[0].log] else []) + Enqueued(events[1..])
  }

  predicate Removes(a: Action)
  {
    a.Delivered? || a.Dropped?
  }

  /** The logs that left the queue, delivered or dropped, in order. */
  function Removed(actions: seq<Action>): seq<Log>
  {
    if |actions| == 0 then []
    else (if Removes(actions[0]) then [actions[0].log] else []) + Removed(actions[1..])
  }

  /** The logs attempted before the first removal. */
  function AttemptedBeforeRemoval(actions: seq<Action>): seq<Log>
  {
    if |actions| == 0 || Removes(actions[0]) then []
    else (if actions[0].Failed? then [actions[0].log] else []) + AttemptedBeforeRemoval(actions[1..])
  }

  /** FIFO: what has left the queue followed by what is still in it is
      exactly what was in it followed by what was enqueued. */
  lemma {:induction false} RunIsFifo(s: Settings, b: Bucket, events: seq<Event>)
    ensures var t := Run(s, b, events);
      Removed(t.actions) + t.bucket.queue == b.queue + Enqueued(events)
    decreases |events|
  {
    if |events| > 0 {
      var first := Apply(s, b, events[0]);
      var rest := Run(s, first.bucket, events[1..]);
      RunIsFifo(s, first.bucket, events[1..]);
      RemovedCons(first.action, rest.actions);
      ApplyMovesOneLog(s, b, events[0]);
      Regroup(if Removes(first.action) then [first.action.log] else [],
              Removed(rest.actions), rest.bucket.queue, first.bucket.queue,
              Enqueued(events[1..]), b.queue,
              if events[0].Enqueue? then [events[0].log] else []);
    }
  }

  lemma RemovedCons(a: Action, rest: seq<Action>)
    ensures Removed([a] + rest) == (if Removes(a) then [a.log] else []) + Removed(rest)
  {
    assert ([a] + rest)[1..] == rest;
  }

  /** Sequence bookkeeping for `RunIsFifo`. */
  lemma Regroup<T>(here: seq<T>, removed: seq<T>, q: seq<T>, q1: seq<T>, enq: seq<T>, q0: seq<T>, enqHere: seq<T>)
    requires removed + q == q1 + enq
    requires here + q1 == q0 + enqHere
    ensures (here + removed) + q == q0 + (enqHere + enq)
  {
    calc {
      (here + removed) + q;
      here + (removed + q);
      here + (q1 + enq);
      (here + q1) + enq;
      (q0 + enqHere) + enq;
    }
  }

  /** One event moves at most one log, in at the tail or out at the head. */
  lemma ApplyMovesOneLog(s: Settings, b: Bucket, e: Event)
    ensures var r := Apply(s, b, e);
      (if Removes(r.action) then [r.action.log] else []) + r.bucket.queue
        == b.queue + (if e.Enqueue? then [e.log] else [])
  {
    var r := Apply(s, b, e);
    if Removes(r.action) {
      assert b.queue == [r.action.log] + b.queue[1..];
    }
  }

  predicate AllTicksFail(events: seq<Event>)
  {
    forall i :: 0 <= i < |events| && events[i].Tick? ==> !Accepted(events[i].outcome)
  }

  predicate NoDelivery(actions: seq<Action>)
  {
    forall i :: 0 <= i < |actions| ==> !actions[i].Delivered?
  }

  lemma AllTicksFailTail(events: seq<Event>)
    requires |events| > 0 && AllTicksFail(events)
    ensures AllTicksFail(events[1..])
    ensures events[0].Tick? ==> !Accepted(events[0].outcome)
  {
    forall i | 0 <= i < |events[1..]| && events[1..][i].Tick?
      ensures !Accepted(events[1..][i].outcome)
    {
      assert events[1..][i] == events[i + 1];
    }
  }

  lemma NoDeliveryCons(a: Action, rest: seq<Action>)
    requires !a.Delivered? && NoDelivery(rest)
    ensures NoDelivery([a] + rest)
  {
    forall i | 0 <= i < |[a] + rest|
      ensures !([a] + rest)[i].Delivered?
    {
      if i > 0 {
        assert ([a] + rest)[i] == rest[i - 1];
      }
    }
  }

  lemma AttemptedCons(a: Action, rest: seq<Action>)
    ensures AttemptedBeforeRemoval([a] + rest)
      == if Removes(a) then [] else (if a.Failed? then [a.log] else []) + AttemptedBeforeRemoval(rest)
  {
    assert ([a] + rest)[1..] == rest;
  }

  /** While every send fails, the head log is attempted at most
      `Budget(maxRetries) - tries` more times, and if it leaves the queue it
      is dropped after exactly that many attempts; no other log is attempted
      before that. From `tries == 0` that is exactly `maxRetries` attempts. */
  lemma {:induction false} FailingHeadUsesBudget(s: Settings, b: Bucket, events: seq<Event>)
    requires Valid(b, s.maxRetries) && |b.queue| > 0
    requires AllTicksFail(events)
    ensures var t := Run(s, b, events);
      var attempts := AttemptedBeforeRemoval(t.actions);
      && |attempts| <= Budget(s.maxRetries) - b.tries
      && (forall i :: 0 <= i < |attempts| ==> attempts[i] == b.queue[0])
      && (|Removed(t.actions)| > 0 ==>
            && Removed(t.actions)[0] == b.queue[0]
            && |attempts| == Budget(s.maxRetries) - b.tries)
      && NoDelivery(t.actions)
    decreases |events|
  {
    if |events| > 0 {
      var first := Apply(s, b, events[0]);
      var b1 := first.bucket;
      var rest := Run(s, b1, events[1..]);
      AllTicksFailTail(events);
      FailingEvent(s, b, events[0]);
      RemovedCons(first.action, rest.actions);
      AttemptedCons(first.action, rest.actions);
      if first.action.Dropped? {
        FailingRestNeverDelivers(s, b1, events[1..]);
      } else {
        FailingHeadUsesBudget(s, b1, events[1..]);
      }
      NoDeliveryCons(first.action, rest.actions);
    }
  }

  /** One event while sends fail: never a delivery; unless the head is
      dropped it stays the head, and only a failed attempt moves the counter. */
  lemma FailingEvent(s: Settings, b: Bucket, e: Event)
    requires Valid(b, s.maxRetries) && |b.queue| > 0
    requires e.Tick? ==> !Accepted(e.outcome)
    ensures var r := Apply(s, b, e);
      && !r.action.Delivered?
      && (r.action.Dropped? ==> r.action.log == b.queue[0] && b.tries >= s.maxRetries)
      && (!r.action.Dropped? ==>
            && Valid(r.bucket, s.maxRetries) && |r.bucket.queue| > 0
            && r.bucket.queue[0] == b.queue[0]
            && r.bucket.tries == b.tries + (if r.action.Failed? then 1 else 0)
            && (r.action.Failed? ==> r.action.log == b.queue[0]))
  {
  }

  /** With every send failing, nothing is ever delivered. */
  lemma {:induction false} FailingRestNeverDelivers(s: Settings, b: Bucket, events: seq<Event>)
    requires AllTicksFail(events)
    ensures NoDelivery(Run(s, b, events).actions)
    decreases |events|
  {
    if |events| > 0 {
      var first := Apply(s, b, events[0]);
      var rest := Run(s, first.bucket, events[1..]);
      AllTicksFailTail(events);
      FailingRestNeverDelivers(s, first.bucket, events[1..]);
      NoDeliveryCons(first.action, rest.actions);
    }
  }

  /** Failed attempts after which the worker may still send: no response,
      or a response whose remaining header does not parse (the rate state is
      untouched), or one that reports requests left and is neither accepted
      nor a 429. */
  predicate FailsKeepingQuota(o: Outcome)
  {
    match o
    case TransportError => true
    case Response(status, remainingHeader, resetHeader) =>
      match ParseInt(remainingHeader)
      case None => true
      case Some(left) =>
        && left > 0
        && (ParseLong(resetHeader).Some? ==> (status < 200 || status >= 300) && status != 429)
  }

  /** A log whose sends keep failing while the worker may send, a fresh
      worker included, is attempted `Budget(maxRetries) - tries` times in a
      row and then dropped, which resets the counter for the next log. With
      `maxRetries <= 0` it is dropped without any attempt. */
  lemma {:induction false} FailingHeadDroppedAfterBudget(s: Settings, b: Bucket, events: seq<Event>)
    requires Valid(b, s.maxRetries) && |b.queue| > 0
    requires |events| == Budget(s.maxRetries) - b.tries + 1
    requires forall i :: 0 <= i < |events| ==> events[i].Tick? && FailsKeepingQuota(events[i].outcome)
    requires forall i :: 0 <= i < |events| ==> CanSend(b, events[i].now)
    ensures var t := Run(s, b, events);
      && (forall i :: 0 <= i < |events| - 1 ==> t.actions[i].Failed? && t.actions[i].log == b.queue[0])
      && t.actions[|events| - 1] == Dropped(b.queue[0])
      && t.bucket.queue == b.queue[1..]
      && t.bucket.tries == 0
    decreases |events|
  {
    var first := Step(s, b, events[0].now, events[0].timestamp, events[0].outcome);
    var rest := Run(s, first.bucket, events[1..]);
    if b.tries < s.maxRetries {
      FailingKeepsSending(s, b, events[0]);
      SendingTail(b, first.bucket, events);
      FailingHeadDroppedAfterBudget(s, first.bucket, events[1..]);
      FailedCons(first.action, rest.actions, b.queue[0]);
    } else {
      assert first.action.Dropped?;
    }
  }

  /** One such failure: the head stays, the counter goes up by one, and the
      worker either has requests left or keeps its rate state. */
  lemma FailingKeepsSending(s: Settings, b: Bucket, e: Event)
    requires e.Tick? && FailsKeepingQuota(e.outcome) && CanSend(b, e.now)
    requires |b.queue| > 0 && 0 <= b.tries < s.maxRetries
    ensures var r := Apply(s, b, e);
      && r.action.Failed? && r.action.log == b.queue[0]
      && r.bucket.queue == b.queue && r.bucket.tries == b.tries + 1
      && (r.bucket.remaining > 0 || (r.bucket.remaining == b.remaining && r.bucket.reset == b.reset))
  {
  }

  /** The sending premise carries over to the rest of the events. */
  lemma SendingTail(b: Bucket, b1: Bucket, events: seq<Event>)
    requires |events| > 0
    requires b1.remaining > 0 || (b1.remaining == b.remaining && b1.reset == b.reset)
    requires forall i :: 0 <= i < |events| ==> events[i].Tick? && CanSend(b, events[i].now)
    ensures forall i :: 0 <= i < |events[1..]| ==> events[1..][i].Tick? && CanSend(b1, events[1..][i].now)
  {
    forall i | 0 <= i < |events[1..]|
      ensures events[1..][i].Tick? && CanSend(b1, events[1..][i].now)
    {
      assert events[1..][i] == events[i + 1];
    }
  }

  lemma FailedCons(a: Action, rest: seq<Action>, x: Log)
    requires |rest| > 0 && a.Failed? && a.log == x
    requires forall i :: 0 <= i < |rest| - 1 ==> rest[i].Failed? && rest[i].log == x
    ensures forall i :: 0 <= i < |rest| ==> ([a] + rest)[i].Failed? && ([a] + rest)[i].log == x
    ensures ([a] + rest)[|rest|] == rest[|rest| - 1]
  {
    forall i | 0 <= i < |rest|
      ensures ([a] + rest)[i].Failed? && ([a] + rest)[i].log == x
    {
      if i > 0 {
        assert ([a] + rest)[i] == rest[i - 1];
      }
    }
  }

  /** While the worker may not send, it neither attempts nor drops anything
      and its rate-limit state and counter stay as they are; enqueued logs
      simply wait. */
  lemma {:induction false} NoAttemptWhileRateLimited(s: Settings, b: Bucket, events: seq<Event>)
    requires forall i :: 0 <= i < |events| && events[i].Tick? ==> !CanSend(b, events[i].now)
    ensures var t := Run(s, b, events);
      && t.bucket.remaining == b.remaining
      && t.bucket.reset == b.reset
      && t.bucket.tries == b.tries
      && t.bucket.queue == b.queue + Enqueued(events)
      && OnlyWaiting(t.actions)
    decreases |events|
  {
    if |events| > 0 {
      var first := Apply(s, b, events[0]);
      var b1 := first.bucket;
      var rest := Run(s, b1, events[1..]);
      assert events[0].Tick? ==> !CanSend(b, events[0].now);
      assert first.action.Queued? || first.action.Backoff?;
      assert b1 == b.(queue := b1.queue);
      var here := if events[0].Enqueue? then [events[0].log] else [];
      assert b1.queue == b.queue + here;
      RateLimitedTail(s, b, b1, events);
      NoAttemptWhileRateLimited(s, b1, events[1..]);
      EnqueuedCons(events);
      Sequences.Assoc(b.queue, here, Enqueued(events[1..]));
      OnlyWaitingCons(first.action, rest.actions);
    }
  }

  /** Every action is an enqueue or a rate-limit sleep. */
  predicate OnlyWaiting(actions: seq<Action>)
  {
    forall i :: 0 <= i < |actions| ==> actions[i].Queued? || actions[i].Backoff?
  }

  lemma OnlyWaitingCons(a: Action, rest: seq<Action>)
    requires (a.Queued? || a.Backoff?) && OnlyWaiting(rest)
    ensures OnlyWaiting([a] + rest)
  {
    forall i | 0 <= i < |[a] + rest|
      ensures ([a] + rest)[i].Queued? || ([a] + rest)[i].Backoff?
    {
      if i > 0 {
        assert ([a] + rest)[i] == rest[i - 1];
      }
    }
  }

  lemma EnqueuedCons(events: seq<Event>)
    requires |events| > 0
    ensures Enqueued(events) == (if events[0].Enqueue? then [events[0].log] else []) + Enqueued(events[1..])
  {
  }

  /** The premise of `NoAttemptWhileRateLimited` carries over to the rest of
      the events, since `CanSend` reads only the rate-limit state. */
  lemma RateLimitedTail(s: Settings, b: Bucket, b1: Bucket, events: seq<Event>)
    requires |events| > 0
    requires b1.remaining == b.remaining && b1.reset == b.reset
    requires forall i :: 0 <= i < |events| && events[i].Tick? ==> !CanSend(b, events[i].now)
    ensures forall i :: 0 <= i < |events[1..]| && events[1..][i].Tick? ==> !CanSend(b1, events[1..][i].now)
  {
    forall i | 0 <= i < |events[1..]| && events[1..][i].Tick?
      ensures !CanSend(b1, events[1..][i].now)
    {
      assert events[1..][i] == events[i + 1];
    }
  }
}

=== FILE: JvmInt.dfy ===
/** The JVM's fixed-width integers. Kotlin `Int` and `Long` arithmetic wraps
    around silently; the model writes that wrap-around out where Dislog's
    code can reach it. */
module JvmInt {

  const INT_MIN: int := -0x8000_0000
  const INT_MAX: int := 0x7fff_ffff
  const LONG_MIN: int := -0x8000_0000_0000_0000
  const LONG_MAX: int := 0x7fff_ffff_ffff_ffff

  /** Kotlin `Int`. */
  type Int32 = x: int | INT_MIN <= x <= INT_MAX

  /** Kotlin `Long`. */
  type Int64 = x: int | LONG_MIN <= x <= LONG_MAX

  /** The `Int` that two's-complement arithmetic produces for the exact result `x`. */
  function WrapInt32(x: int): (r: Int32)
    ensures INT_MIN <= x <= INT_MAX ==> r == x
    ensures x == INT_MAX + 1 ==> r == INT_MIN
    ensures (x - r) % 0x1_0000_0000 == 0
  {
    (x - INT_MIN) % 0x1_0000_0000 + INT_MIN
  }

  /** The `Long` that two's-complement arithmetic produces for the exact result `x`. */
  function WrapInt64(x: int): (r: Int64)
    ensures LONG_MIN <= x <= LONG_MAX ==> r == x
    ensures x == LONG_MAX + 1 ==> r == LONG_MIN
    ensures (x - r) % 0x1_0000_0000_0000_0000 == 0
  {
    (x - LONG_MIN) % 0x1_0000_0000_0000_0000 + LONG_MIN
  }

  const LONG_MODULUS: int := 0x1_0000_0000_0000_0000

  /** Congruence modulo 2^64 is closed under sums ... */
  lemma LongCongruentSum(a: int, b: int)
    requires a % LONG_MODULUS == 0 && b % LONG_MODULUS == 0
    ensures (a + b) % LONG_MODULUS == 0
  {
    assert a == (a / LONG_MODULUS) * LONG_MODULUS;
    assert b == (b / LONG_MODULUS) * LONG_MODULUS;
    assert a + b == (a / LONG_MODULUS + b / LONG_MODULUS) * LONG_MODULUS;
  }

  /** ... and under scaling. */
  lemma LongCongruentScale(a: int, c: int)
    requires a % LONG_MODULUS == 0
    ensures (a * c) % LONG_MODULUS == 0
  {
    var k := a / LONG_MODULUS;
    assert a == k * LONG_MODULUS;
    assert a * c == (k * c) * LONG_MODULUS;
  }

  /** Two `Long` values congruent modulo 2^64 are equal. */
  lemma LongCongruentEqual(a: int, b: int)
    requires LONG_MIN <= a <= LONG_MAX && LONG_MIN <= b <= LONG_MAX
    requires (a - b) % LONG_MODULUS == 0
    ensures a == b
  {
    var k := (a - b) / LONG_MODULUS;
    assert a - b == k * LONG_MODULUS;
  }
}

=== FILE: Log.dfy ===
/** A log event as the caller hands it to the client. */
module Log {
  import opened Wrappers

  /** The severities a webhook can be registered for. */
  datatype LogLevel = Debug | Info | Warn | Error | Fatal | Trace

  /** The part of a thrown exception the formatter reads: its (nullable)
      message and the text `printStackTrace` would write. */
  datatype Exception = Exception(message: Option<string>, stackTrace: string)

  /** A log event. `mdc` is the context map captured when the log was made,
      as its entries in iteration order; `None` when no context was set. */
  datatype Log = Log(
    message: string,
    level: LogLevel,
    exception: Option<Exception>,
    mdc: Option<seq<(string, string)>>)
}

=== FILE: Sequences.dfy ===
/** Facts about sequences used by several proofs. */
module Sequences {

  lemma Assoc<T>(a: seq<T>, b: seq<T>, c: seq<T>)
    ensures (a + b) + c == a + (b + c)
  {
  }
}

=== FILE: Wrappers.dfy ===
/** Optional values and error-carrying results, used where Dislog's code
    has nullable values or throws. */
module Wrappers {

  /** A value that may be absent (a Kotlin nullable). */
  datatype Option<+T> = None | Some(value: T)

  /** The outcome of an operation that can throw: its value, or the error. */
  datatype Result<+R, +E> = Success(value: R) | Failure(error: E)
}
